=== FILE: README.md ===
# Wall 2 Wall — a verified model of the frame update

Wall 2 Wall is a small arcade game. A red main ball bounces between two side
walls under a ceiling. Touching the green wall scores a point; that wall then
turns red and the opposite wall green. A cannon at the bottom of the screen
fires projectiles that collide with the main ball and with each other. The
more projectiles there are, the stronger the main ball's gravity. The game is
lost when the main ball drops below the screen.

This project models the per-frame game logic of `src/main.rs` with positions,
velocities, radii and masses as reals. The screen size (`Field`) and the frame
time `dt` are parameters.

| file | module | what it holds |
|---|---|---|
| `vectors.dfy` | `Vectors` | the two-dimensional vector operations the physics uses |
| `physics.dfy` | `Physics` | the constants, the `Ball` record, `move_kinematic`, `bounce_walls`, `bounce_balls` |
| `scoring.dfy` | `Scoring` | the `Current` state machine, the wall colours, `increment_score` with its `save` events, the lose reset of the board |
| `projectiles.dfy` | `Projectiles` | the projectile loop, `retain`, and the `split_at_mut` pair sweep (a reference order and the nested loop proved equal to it) |
| `game.dfy` | `Game` | launch, gravity escalation, the main ball's wall checks and lose check, and the whole frame `Step` |

`save` is not performed: a frame returns the sequence of values it would have
passed to `save`. The square root and the normalisation that `bounce_balls`
needs come from a parameter `measure`. The predicate
`IsMeasure` requires it to return, for any two distinct points, their true
distance and the unit vector between them.

## Model

| member | source | states |
|---|---|---|
| Scoring.IncrementScore | src/main.rs:298-304 | the score rises by exactly one; the best becomes the maximum of the old best and the new score, so it never falls and ends at least the score; `save` fires exactly when the new score exceeds the old best |
| Scoring.Contact | src/main.rs:142-171 | a contact with the wall opposite the one the state names leaves board and events unchanged; a contact with the named wall, or any contact from `None`, scores one point, moves the state to the opposite wall, saves when the best is beaten, and colours the touched wall red and the other green; the colours keep showing the state |
| Scoring.Target | src/main.rs:142-171 | a right-wall contact moves the state to `Left` and a left-wall contact to `Right`, never back to `None` |
| Scoring.Lose | src/main.rs:174-180 | the lose reset sets the score to 0, the state to `None` and both walls green, keeps the best, and leaves a board on which either wall scores next |
| Scoring.ApplyContacts | src/main.rs:142-171 | over a run of contacts the best and the score never fall, the colours keep showing the state, and the state names the opposite of the last wall touched |
| Scoring.ContactsScore | src/main.rs:142-171 | over a run of contacts the score rises by the number of contacts that alternate with the one before, and the best ends as the maximum of the old best and the final score |
| Scoring.ContactsSaves | src/main.rs:298-304 | the values saved over a run of contacts strictly increase, all lie above the old best and at most the new best, exist exactly when the best rose, and the last one is the new best |
| Scoring.CountScoringAtMost | src/main.rs:142-171 | a run of contacts scores at most once per contact |
| Scoring.AlternatingAlwaysScores | src/main.rs:142-171 | contacts that alternate between the walls, starting with a scoring wall, all score |
| Scoring.RepeatedWallScoresOnce | src/main.rs:142-171 | touching the same wall any number of times scores at most once |
| Physics.MoveKinematic | src/main.rs:386-394 | one frame leaves the horizontal velocity alone, raises the vertical velocity by exactly gravity times `dt`, moves the centre by the mean of the old and new velocities times `dt`, and changes nothing else |
| Physics.FallKeepsShape | src/main.rs:386-394 | any number of frames of falling changes only the centre and the velocity |
| Physics.FallExact | src/main.rs:386-394 | after any number of frames the half-step scheme gives exactly the constant-acceleration position p0 + v0 t + g t²/2 and velocity v0 + g t, with t the accumulated frame time |
| Physics.ElapsedIsProduct | src/main.rs:386-394 | the frame time accumulated over `n` frames is `n` times the frame time |
| Physics.BounceCeiling | src/main.rs:396-399 | a ball above the ceiling limit is put on it with its vertical velocity reversed; otherwise it is unchanged; the horizontal part is never touched |
| Physics.BounceRight | src/main.rs:401-404 | a ball past the right limit is put on it with its horizontal velocity reversed; otherwise it is unchanged; the vertical part is never touched |
| Physics.BounceLeft | src/main.rs:406-409 | a ball past the left limit is put on it with its horizontal velocity reversed; otherwise it is unchanged; the vertical part is never touched |
| Physics.BounceWalls | src/main.rs:395-410 | the centre ends below the ceiling limit and right of the left limit, with no floor; in a field wide enough for the ball the centre is clamped into the travel region and each velocity component is reversed exactly when its coordinate was out of range; in a narrower field the ball ends on the left limit |
| Physics.BounceWallsIdempotent | src/main.rs:395-410 | in a field wide enough for the ball, a second pass of the wall checks changes nothing |
| Physics.BounceBalls | src/main.rs:411-429 | balls that do not overlap are unchanged; positions never change; total momentum is conserved; overlapping balls separate strictly faster along the line of centres |
| Physics.BounceAlongLine | src/main.rs:411-429 | the velocity change of each ball lies on the line of centres |
| Projectiles.Resolve | src/main.rs:411-429 | a collision through `measure`: only velocities change, momentum is conserved, balls that do not overlap or share a centre are unchanged, and overlapping ones separate faster |
| Projectiles.Advance | src/main.rs:183-184 | a projectile falls under the plain gravity for one frame and then meets the wall checks: its vertical position is the fallen one raised to the ceiling limit, its vertical velocity the fallen one, reversed exactly when the ceiling was hit; in a field wide enough for the ball the horizontal position is the moved one clamped between the side limits, its horizontal velocity reversed exactly when it was clamped; nothing but centre and velocity changes |
| Projectiles.UpdateOne | src/main.rs:182-189 | a projectile moves by its own motion and is marked out of bounds exactly when it ends more than a projectile radius below the screen; the main ball changes only its velocity; a moved projectile that does not overlap the main ball leaves it unchanged and keeps its own velocity; in every case the momentum of the pair is conserved, and when they overlap they separate faster, even when the projectile is leaving the field in this frame |
| Projectiles.UpdateAll | src/main.rs:182-190 | after the loop every projectile has its advanced position and is in bounds exactly when it was and has not dropped out; the main ball changes only its velocity |
| Projectiles.UpdateAllConserves | src/main.rs:182-190 | the loop conserves momentum: the main ball and the projectiles after it carry the momentum of the main ball before it plus that of the projectiles after their own motion |
| Projectiles.UpdateAllHitsEach | src/main.rs:182-190 | every projectile, leaving the field or not, is collided with the main ball as the projectiles before it left it, and that collision alone gives its entry in the result and the main ball passed on; when they overlap they separate strictly faster along their line of centres |
| Projectiles.UpdateAllPrefix | src/main.rs:182-190 | the loop's result for the first `k` projectiles does not depend on the projectiles after them |
| Projectiles.Retain | src/main.rs:191 | exactly the projectiles in bounds are kept, and the result is no longer than the input |
| Projectiles.RetainAppend | src/main.rs:191 | pruning distributes over concatenation, so the survivors keep their relative order |
| Projectiles.RetainAllInBound | src/main.rs:191 | when every projectile is in bounds, pruning keeps all of them |
| Projectiles.Row | src/main.rs:197-199 | the receiver `lo` meets every later index once, in increasing order |
| Projectiles.PairsUpToMembers | src/main.rs:192-200 | the first `m` rows of the sweep hold exactly the pairs `lo < hi` with receiver below `m` |
| Projectiles.PairsUpToSorted | src/main.rs:192-200 | the pairs of the sweep come in strictly increasing lexicographic order |
| Projectiles.PairsUpToSize | src/main.rs:192-200 | the first `m` rows of the sweep hold m(2n − m − 1)/2 pairs |
| Projectiles.PairOrderComplete | src/main.rs:192-200 | the sweep over `n` projectiles visits every pair of distinct indices exactly once with the lower index as receiver, never a ball with itself, n(n − 1)/2 pairs in all, and nothing when fewer than two remain |
| Projectiles.ApplyPair | src/main.rs:193-199 | one collision of the sweep keeps the number of projectiles and their positive sizes and masses; it leaves all projectiles unchanged when the named two do not overlap, and otherwise makes them separate strictly faster along their line of centres |
| Projectiles.ApplyPairFrame | src/main.rs:193-199 | one collision of the sweep changes only the velocities of the two projectiles it names |
| Projectiles.ApplyPairMomentum | src/main.rs:193-199 | one collision of the sweep conserves the total momentum of the projectiles |
| Projectiles.ApplyPairsConserves | src/main.rs:192-200 | the whole sweep changes only velocities and conserves the total momentum of the projectiles |
| Projectiles.SweepRow | src/main.rs:193-199 | the inner loop collides the receiver with each later projectile in order, which is the receiver's row of the reference order |
| Projectiles.SweepPairs | src/main.rs:192-200 | the nested `split_at_mut` loop visits exactly the reference pair order and its result is that of applying the collisions in that order |
| Game.SpawnMainBall | src/main.rs:363-372 | the respawned main ball sits at the centre of the screen with velocity (0, −3), the main ball's radius and mass, and in bounds |
| Game.InitWellFormed | src/main.rs:50-71 | a game starts well formed: a fresh board with the loaded best score, the spawned main ball and no projectiles satisfy every between-frames invariant |
| Game.CannonBall | src/main.rs:119-126 | a fired projectile starts at the middle of the bottom edge with the projectile radius and mass 0.7, in bounds, with the given velocity |
| Game.Launched | src/main.rs:118-128 | a click appends exactly one projectile, from the cannon, behind the others; otherwise the projectiles are unchanged |
| Game.Escalation | src/main.rs:130-132 | the escalation factor 1.5^k is at least 1 |
| Game.MainGravity | src/main.rs:129-133 | the main ball's gravity is the plain gravity with at most four projectiles, and never less than it |
| Game.GravityStep | src/main.rs:129-133 | from four projectiles on, each further projectile multiplies the main ball's gravity by 1.5 |
| Game.GravityMonotone | src/main.rs:129-133 | more projectiles never weaken the main ball's gravity |
| Game.SideContacts | src/main.rs:141-171 | in a wide field the main ball touches the right wall exactly when past the right limit and the left wall exactly when short of the left limit, never both; in a narrow field the left check always fires, after the right one when that fires too |
| Game.MainPhase | src/main.rs:133-180 | the main ball's frame keeps the save events and the best of its wall contacts; when the ball drops below the lose line the board is fresh and the ball respawned, and otherwise the board is that of the contacts and the ball that of the wall checks |
| Game.MainPhaseScore | src/main.rs:141-180 | after the main ball's frame the score is 0 on a loss and otherwise the old score plus the scoring contacts, at most one more in a field wide enough for the ball |
| Game.KeptAreSettled | src/main.rs:182-191 | the projectiles kept after the loop and the pruning are projectiles, in bounds, above their drop line |
| Game.SweepKeepsSettled | src/main.rs:192-200 | the pair sweep keeps every survivor above its drop line |
| Game.Staying | src/main.rs:187-191 | the number of projectiles that stay is at most the number there were |
| Game.RetainCount | src/main.rs:187-191 | pruning keeps one projectile for each one whose update left it in bounds |
| Game.Step | src/main.rs:117-200 | a frame keeps the sizes, masses, score-below-best and wall-colour invariants; the best never falls; the saves of the frame strictly increase above the old best and exist exactly when the best rose, the last one being the new best; neither the main ball nor any projectile ends below its drop line |
| Game.LossResets | src/main.rs:174-180 | a frame that loses the main ball ends with score 0, no preferred wall, both walls green, the best not lowered, and the main ball at the spawn point with its own size and mass |
| Game.SurvivorCount | src/main.rs:182-191 | a frame keeps exactly as many projectiles, old and newly fired, as stay above their drop line after their own motion |

## Left out

- Rendering (`draw`, `draw_pause`, the `draw` methods): drawing calls only. Of the colours, only the two wall colours are kept.
- `load` and `save` (file system, browser storage, JSON): `save` becomes the returned sequence of saved values, and the best score at start is whatever the caller puts in the `Board`.
- Pause handling, `handle_pause` and `show_message`: mouse input and a message flag that no game rule reads.
- `canon_angle` and the launch speed `(-sin a, cos a) * 700`: trigonometry on the mouse position. `Launch.Fire` carries the velocity as given.
- The frame loop, `next_frame`, `screen_width()`, `screen_height()` and `get_frame_time()`: the screen is the `Field` parameter and the frame time the `dt` parameter, one value per frame.
- 32-bit floats: all arithmetic is on reals, so rounding, overflow to infinity and `powi` precision are not modelled. The conservation and separation results hold in that abstraction.
- `sqrt` and `normalize`: a caller-supplied `measure` with the exactness condition `IsMeasure` stands in for them.
- Projectiles.Resolve: when two centres coincide, the game normalises a zero vector and gets NaN velocities. The model leaves both balls unchanged there.
- 32-bit scores: `score` and `best_score` are unbounded naturals, so a `u32` overflow after 2^32 − 1 points is not modelled.

=== FILE: game.dfy ===
/** One frame of Wall 2 Wall: an optional launch from the cannon, the main
    ball's fall under a gravity that grows with the number of projectiles, its
    wall checks with their scoring, the lose check, and then the projectile
    loop, the pruning and the pair sweep. */
module Game {
  import opened Vectors
  import opened Physics
  import opened Scoring
  import opened Projectiles

  /** Mass of a projectile fired by the cannon. */
  const ProjectileMass: real := 0.7

  /** Number of projectiles the main ball's gravity tolerates before it grows. */
  const CalmCount: nat := 4

  /** The input of a frame: no click, or a click that fires a projectile with
      the given velocity (the cannon's aim times 700, left abstract). */
  datatype Launch = Hold | Fire(velocity: Vec2)

  /** What the frame update reads and writes: the scoring board, the main ball
      and the projectiles in firing order. */
  datatype World = World(board: Board, main: Ball, balls: seq<Ball>)

  /** The outcome of a frame: the new world and the values handed to `save`,
      in order. */
  datatype Frame = Frame(world: World, saves: seq<nat>)

  /** A screen the game can be played on. */
  predicate ValidField(field: Field) {
    field.width > 0.0 && field.height > 0.0
  }

  predicate IsMainBall(b: Ball) {
    b.radius == MainBallRadius && b.mass == MainBallMass
  }

  /** A projectile still on the field, with the cannon's radius and mass. */
  predicate IsProjectile(b: Ball) {
    b.radius == BallRadius && b.mass == ProjectileMass && b.inBound
  }

  predicate AllProjectiles(balls: seq<Ball>) {
    forall i :: 0 <= i < |balls| ==> IsProjectile(balls[i])
  }

  /** Projectiles that all remain above their drop line. */
  predicate Settled(balls: seq<Ball>, field: Field) {
    forall i :: 0 <= i < |balls| ==> IsProjectile(balls[i]) && !Retires(balls[i], field)
  }

  /** What holds between frames: the balls have their fixed sizes and masses,
      every projectile is in bounds, the best score is at least the score and
      the wall colours show which wall scores next. */
  predicate WellFormed(w: World) {
    && IsMainBall(w.main)
    && AllProjectiles(w.balls)
    && w.board.best >= w.board.score
    && WallsShow(w.board)
  }

  /** The main ball of a fresh game and after every loss: at rest in the middle
      of the screen apart from a slight upward drift. */
  function SpawnMainBall(field: Field): (r: Ball)
    ensures IsMainBall(r) && Solid(r) && r.inBound
    ensures r.center.x == field.width / 2.0 && r.center.y == field.height / 2.0
    ensures r.velocity == Vec2(0.0, -3.0)
  {
    Ball(Vec2(field.width / 2.0, field.height / 2.0), MainBallRadius, Vec2(0.0, -3.0), MainBallMass, true)
  }

  /** A game starts well formed: a fresh board with whatever best score was
      loaded, the spawned main ball and no projectiles. */
  lemma InitWellFormed(field: Field, best: nat)
    ensures WellFormed(World(Fresh(best), SpawnMainBall(field), []))
  {
  }

  /** A projectile leaving the cannon, which sits at the middle of the bottom
      edge. */
  function CannonBall(field: Field, velocity: Vec2): (r: Ball)
    ensures IsProjectile(r) && Solid(r)
    ensures r.center == Vec2(field.width / 2.0, field.height) && r.velocity == velocity
  {
    Ball(Vec2(field.width / 2.0, field.height), BallRadius, velocity, ProjectileMass, true)
  }

  /** The projectiles after the frame's input: a click appends one projectile
      at the cannon, behind all the others. */
  function Launched(field: Field, balls: seq<Ball>, launch: Launch): (r: seq<Ball>)
    ensures |r| == |balls| + (if launch.Fire? then 1 else 0)
    ensures r[..|balls|] == balls
    ensures launch.Fire? ==> r[|balls|] == CannonBall(field, launch.velocity)
    ensures AllProjectiles(balls) ==> AllProjectiles(r)
  {
    match launch
    case Hold => balls
    case Fire(v) => balls + [CannonBall(field, v)]
  }

  // ---------------------------------------------------------------------
  // Gravity escalation
  // ---------------------------------------------------------------------

  /** The factor 1.5^k. */
  function Escalation(k: nat): (r: real)
    ensures r >= 1.0
  {
    if k == 0 then 1.0 else MainBallGravityMult * Escalation(k - 1)
  }

  /** The main ball's gravity with `count` projectiles on the field: the plain
      gravity up to four projectiles, then 1.5 times more for each one beyond. */
  function MainGravity(count: nat): (g: real)
    ensures g >= Gravity
    ensures count <= CalmCount ==> g == Gravity
  {
    if count > CalmCount then Escalation(count - CalmCount) * Gravity else Gravity
  }

  /** From four projectiles on, each further projectile multiplies the main
      ball's gravity by 1.5. */
  lemma GravityStep(count: nat)
    requires count >= CalmCount
    ensures MainGravity(count + 1) == MainBallGravityMult * MainGravity(count)
  {
    if count == CalmCount {
      assert Escalation(1) == MainBallGravityMult;
    }
  }

  /** More projectiles never make the main ball's gravity weaker. */
  lemma {:induction false} GravityMonotone(c: nat, d: nat)
    requires c <= d
    ensures MainGravity(c) <= MainGravity(d)
  {
    if c < d {
      GravityMonotone(c, d - 1);
      if d - 1 >= CalmCount {
        GravityStep(d - 1);
      }
    }
  }

  // ---------------------------------------------------------------------
  // The main ball
  // ---------------------------------------------------------------------

  /** The side walls the main ball touches in a frame, in the order of the
      checks: the right check, then the left check on the position the right
      check left behind. In a field wide enough for the ball there is at most
      one contact; in a narrower one the left check always fires. */
  function SideContacts(b: Ball, width: real): (walls: seq<Wall>)
    ensures NearLimit(b) <= FarLimit(b, width) ==>
              walls == (if FarLimit(b, width) < b.center.x then [RightWall]
                        else if b.center.x < NearLimit(b) then [LeftWall]
                        else [])
    ensures FarLimit(b, width) < NearLimit(b) ==>
              walls == (if FarLimit(b, width) < b.center.x then [RightWall, LeftWall] else [LeftWall])
  {
    var afterCeiling := BounceCeiling(b);
    var afterRight := BounceRight(afterCeiling, width);
    (if FarLimit(afterCeiling, width) < afterCeiling.center.x then [RightWall] else [])
      + (if afterRight.center.x < NearLimit(afterRight) then [LeftWall] else [])
  }

  /** The lose condition: the main ball's centre is more than a main-ball
      radius below the bottom edge. */
  predicate Falls(b: Ball, field: Field) {
    b.center.y > field.height + MainBallRadius
  }

  /** The main ball's part of a frame under `gravity`: the fall, the three wall
      checks with the scoring of the side contacts, and the lose check, which
      resets the board and respawns the ball. */
  function MainPhase(field: Field, dt: real, gravity: real, board: Board, main: Ball): (r: (Scored, Ball))
    requires board.best >= board.score && WallsShow(board) && IsMainBall(main)
    ensures var moved := MoveKinematic(main, gravity, dt);
            var bounced := BounceWalls(moved, field.width);
            var contacts := ApplyContacts(board, SideContacts(moved, field.width));
            && r.0.saves == contacts.saves
            && r.0.board.best == contacts.board.best
            && (Falls(bounced, field) ==> r.0.board == Fresh(contacts.board.best) && r.1 == SpawnMainBall(field))
            && (!Falls(bounced, field) ==> r.0.board == contacts.board && r.1 == bounced)
    ensures IsMainBall(r.1) && r.0.board.best >= r.0.board.score && WallsShow(r.0.board)
  {
    var moved := MoveKinematic(main, gravity, dt);
    var bounced := BounceWalls(moved, field.width);
    var contacts := ApplyContacts(board, SideContacts(moved, field.width));
    ContactsSaves(board, SideContacts(moved, field.width));
    if Falls(bounced, field) then
      (Scored(Lose(contacts.board), contacts.saves), SpawnMainBall(field))
    else
      (contacts, bounced)
  }

  /** The score after the main ball's part of a frame: 0 after a loss, and
      otherwise the old score plus the number of scoring side contacts, which
      is at most one in a field wide enough for the ball. */
  lemma MainPhaseScore(field: Field, dt: real, gravity: real, board: Board, main: Ball)
    requires board.best >= board.score && WallsShow(board) && IsMainBall(main)
    ensures var moved := MoveKinematic(main, gravity, dt);
            var walls := SideContacts(moved, field.width);
            var r := MainPhase(field, dt, gravity, board, main);
            && (Falls(BounceWalls(moved, field.width), field) ==> r.0.board.score == 0)
            && (!Falls(BounceWalls(moved, field.width), field) ==>
                  r.0.board.score == board.score + CountScoring(board.current, walls))
            && r.0.board.score <= board.score + |walls|
            && (NearLimit(main) <= FarLimit(main, field.width) ==> r.0.board.score <= board.score + 1)
  {
    var moved := MoveKinematic(main, gravity, dt);
    var walls := SideContacts(moved, field.width);
    ContactsScore(board, walls);
    CountScoringAtMost(board.current, walls);
  }

  // ---------------------------------------------------------------------
  // The projectiles
  // ---------------------------------------------------------------------

  /** After the projectile loop and the pruning, the survivors are projectiles
      above their drop line. */
  lemma {:induction false} KeptAreSettled(measure: (Vec2, Vec2) -> Separation, main: Ball, balls: seq<Ball>,
                                          field: Field, dt: real)
    requires IsMeasure(measure) && Solid(main) && AllSolid(balls) && AllProjectiles(balls)
    ensures Settled(Retain(UpdateAll(measure, main, balls, field, dt).1), field)
  {
    var updated := UpdateAll(measure, main, balls, field, dt).1;
    var kept := Retain(updated);
    forall i | 0 <= i < |kept|
      ensures IsProjectile(kept[i]) && !Retires(kept[i], field)
    {
      assert kept[i] in kept;
      var k :| 0 <= k < |updated| && updated[k] == kept[i];
      assert updated[k].inBound;
    }
  }

  /** The pair sweep changes only velocities, so it keeps the survivors
      settled. */
  lemma SweepKeepsSettled(measure: (Vec2, Vec2) -> Separation, balls: seq<Ball>, field: Field)
    requires IsMeasure(measure) && AllSolid(balls) && Settled(balls, field)
    ensures PairsIn(PairOrder(|balls|), |balls|)
    ensures Settled(ApplyPairs(measure, balls, PairOrder(|balls|)), field)
  {
    PairOrderComplete(|balls|);
    ApplyPairsConserves(measure, balls, PairOrder(|balls|));
  }

  /** How many of `balls` stay above their drop line after their own motion in
      the frame. */
  function Staying(balls: seq<Ball>, field: Field, dt: real): (n: nat)
    ensures n <= |balls|
  {
    if |balls| == 0 then 0
    else
      var last := balls[|balls| - 1];
      Staying(balls[..|balls| - 1], field, dt) + (if Retires(Advance(last, field, dt), field) then 0 else 1)
  }

  /** The pruning keeps one projectile for each ball whose update left it in
      bounds. */
  lemma {:induction false} RetainCount(s: seq<Ball>, balls: seq<Ball>, field: Field, dt: real)
    requires |s| == |balls|
    requires forall i :: 0 <= i < |s| ==> (s[i].inBound <==> !Retires(Advance(balls[i], field, dt), field))
    ensures |Retain(s)| == Staying(balls, field, dt)
  {
    if |s| > 0 {
      RetainCount(s[..|s| - 1], balls[..|balls| - 1], field, dt);
    }
  }

  lemma ProjectilesAreSolid(balls: seq<Ball>)
    requires AllProjectiles(balls)
    ensures AllSolid(balls)
  {
  }

  // ---------------------------------------------------------------------
  // The frame
  // ---------------------------------------------------------------------

  /** One frame of the game on screen `field` with frame time `dt`. The main
      ball's gravity depends on the number of projectiles after the launch; the
      projectiles fall under the plain gravity. */
  function Step(measure: (Vec2, Vec2) -> Separation, field: Field, dt: real, w: World, launch: Launch): (r: Frame)
    requires IsMeasure(measure) && ValidField(field) && WellFormed(w)
    ensures WellFormed(r.world)
    ensures r.world.board.best >= w.board.best
    ensures |r.saves| > 0 <==> r.world.board.best > w.board.best
    ensures StrictlyIncreasing(r.saves)
    ensures forall i :: 0 <= i < |r.saves| ==> w.board.best < r.saves[i] <= r.world.board.best
    ensures |r.saves| > 0 ==> r.saves[|r.saves| - 1] == r.world.board.best
    ensures r.world.main.center.y <= field.height + MainBallRadius
    ensures Settled(r.world.balls, field)
  {
    var balls := Launched(field, w.balls, launch);
    var main := MainPhase(field, dt, MainGravity(|balls|), w.board, w.main);
    ContactsSaves(w.board, SideContacts(MoveKinematic(w.main, MainGravity(|balls|), dt), field.width));
    ProjectilesAreSolid(balls);
    var loop := UpdateAll(measure, main.1, balls, field, dt);
    var kept := Retain(loop.1);
    KeptAreSettled(measure, main.1, balls, field, dt);
    SweepKeepsSettled(measure, kept, field);
    var swept := ApplyPairs(measure, kept, PairOrder(|kept|));
    Frame(World(main.0.board, loop.0, swept), main.0.saves)
  }

  /** The main ball after its fall and wall checks in the frame `Step` computes. */
  function Bounced(field: Field, dt: real, w: World, launch: Launch): Ball {
    var count := |Launched(field, w.balls, launch)|;
    BounceWalls(MoveKinematic(w.main, MainGravity(count), dt), field.width)
  }

  /** A frame in which the main ball drops below the lose line ends with the
      score at 0, no wall preferred, both walls green and the main ball back at
      the spawn point with the main ball's size and mass; the best score is
      whatever the frame's contacts made it, never lowered by the loss. */
  lemma LossResets(measure: (Vec2, Vec2) -> Separation, field: Field, dt: real, w: World, launch: Launch)
    requires IsMeasure(measure) && ValidField(field) && WellFormed(w)
    requires Falls(Bounced(field, dt, w, launch), field)
    ensures var r := Step(measure, field, dt, w, launch).world;
            && r.board == Fresh(r.board.best)
            && r.board.best >= w.board.best
            && r.main.center == SpawnMainBall(field).center
            && IsMainBall(r.main)
  {
  }

  /** A frame keeps exactly the projectiles, old and newly fired, that stay
      above their drop line after their own motion. */
  lemma SurvivorCount(measure: (Vec2, Vec2) -> Separation, field: Field, dt: real, w: World, launch: Launch)
    requires IsMeasure(measure) && ValidField(field) && WellFormed(w)
    ensures |Step(measure, field, dt, w, launch).world.balls| == Staying(Launched(field, w.balls, launch), field, dt)
  {
    var balls := Launched(field, w.balls, launch);
    var gravity := MainGravity(|balls|);
    var main := MainPhase(field, dt, gravity, w.board, w.main);
    ProjectilesAreSolid(balls);
    var updated := UpdateAll(measure, main.1, balls, field, dt).1;
    RetainCount(updated, balls, field, dt);
    var kept := Retain(updated);
    KeptAreSettled(measure, main.1, balls, field, dt);
    SweepKeepsSettled(measure, kept, field);
  }
}

=== FILE: physics.dfy ===
/** A single ball of the Wall 2 Wall game and the three per-ball physics
    operations: the half-step gravity integrator, reflection against the
    ceiling and the two side walls, and the mass-weighted impulse between two
    overlapping balls. Positions, velocities, radii and masses are reals. */
module Physics {
  import opened Vectors

  /** Thickness of the left, right and top walls. */
  const WallThickness: real := 30.0
  const MainBallRadius: real := 50.0
  const MainBallMass: real := 2.0
  /** Factor by which the main ball's gravity grows per projectile beyond four. */
  const MainBallGravityMult: real := 1.5
  /** Radius of a projectile; also the margin of the projectile retirement test. */
  const BallRadius: real := 20.0
  const Gravity: real := 70.0

  /** A circular body. The colour the game draws it with is not modelled. */
  datatype Ball = Ball(center: Vec2, radius: real, velocity: Vec2, mass: real, inBound: bool)

  /** The playing field: the screen size. */
  datatype Field = Field(width: real, height: real)

  /** The bodies the game creates all have positive radius and mass. */
  predicate Solid(b: Ball) {
    b.radius > 0.0 && b.mass > 0.0
  }

  /** Smallest centre coordinate allowed against the ceiling and the left wall. */
  function NearLimit(b: Ball): real {
    b.radius + WallThickness
  }

  /** Largest centre x-coordinate allowed against the right wall. */
  function FarLimit(b: Ball, width: real): real {
    width - b.radius - WallThickness
  }

  function AtLeast(x: real, lo: real): real {
    if x < lo then lo else x
  }

  function Clamp(x: real, lo: real, hi: real): real
    requires lo <= hi
  {
    if x < lo then lo else if hi < x then hi else x
  }

  // ---------------------------------------------------------------------
  // Integration
  // ---------------------------------------------------------------------

  /** One frame of motion under downward acceleration `gravity`: half of the
      velocity change is applied before the position update and half after.
      Over the reals the displacement is the mean of the old and the new
      velocity times `dt`. */
  function MoveKinematic(b: Ball, gravity: real, dt: real): (r: Ball)
    ensures r.velocity.x == b.velocity.x
    ensures r.velocity.y == b.velocity.y + gravity * dt
    ensures r.center == b.center.Plus(b.velocity.Plus(r.velocity).Scale(dt / 2.0))
    ensures r == b.(center := r.center, velocity := r.velocity)
  {
    var vy := b.velocity.y + gravity * dt / 2.0;
    var moved := b.center.Plus(Vec2(b.velocity.x, vy).Scale(dt));
    b.(center := moved, velocity := Vec2(b.velocity.x, vy + gravity * dt / 2.0))
  }

  /** `n` consecutive frames of `MoveKinematic` with the same gravity and frame time. */
  function Fall(b: Ball, gravity: real, dt: real, n: nat): Ball
  {
    if n == 0 then b else MoveKinematic(Fall(b, gravity, dt, n - 1), gravity, dt)
  }

  /** Falling changes only the centre and the velocity. */
  lemma {:induction false} FallKeepsShape(b: Ball, gravity: real, dt: real, n: nat)
    ensures var r := Fall(b, gravity, dt, n);
            r == b.(center := r.center, velocity := r.velocity)
  {
    if n > 0 {
      FallKeepsShape(b, gravity, dt, n - 1);
    }
  }

  /** The closed form of constant-acceleration motion: the position reached from
      `b` after time `t` is p0 + v0 t + g t^2 / 2. */
  function Trajectory(b: Ball, gravity: real, t: real): Vec2 {
    Vec2(b.center.x + b.velocity.x * t, b.center.y + b.velocity.y * t + gravity * t * t / 2.0)
  }

  /** Time elapsed after `n` frames of length `dt`, accumulated frame by frame. */
  function Elapsed(n: nat, dt: real): real {
    if n == 0 then 0.0 else Elapsed(n - 1, dt) + dt
  }

  /** The accumulated frame time is the number of frames times the frame time. */
  lemma {:induction false} ElapsedIsProduct(n: nat, dt: real)
    ensures Elapsed(n, dt) == n as real * dt
  {
    if n > 0 {
      ElapsedIsProduct(n - 1, dt);
      assert (n - 1) as real == n as real - 1.0;
    }
  }

  /** After `n` frames the ball is where exact constant-acceleration motion puts
      it at time t = Elapsed(n, dt): position p0 + v0 t + g t^2 / 2 and velocity
      v0 + g t. */
  predicate FollowsTrajectory(b: Ball, gravity: real, dt: real, n: nat) {
    var p := Fall(b, gravity, dt, n);
    var t := Elapsed(n, dt);
    && p.center == Trajectory(b, gravity, t)
    && p.velocity.x == b.velocity.x
    && p.velocity.y == b.velocity.y + gravity * t
  }

  /** The half-step scheme reproduces exact constant-acceleration motion: after
      any number of frames there is no accumulated error. */
  lemma {:induction false} FallExact(b: Ball, gravity: real, dt: real, n: nat)
    ensures FollowsTrajectory(b, gravity, dt, n)
  {
    if n > 0 {
      FallExact(b, gravity, dt, n - 1);
      FallStep(b, gravity, dt, n);
    } else {
      AtStart(b, gravity, Elapsed(n, dt));
    }
  }

  /** At time zero the closed forms give the starting position and velocity. */
  lemma AtStart(b: Ball, gravity: real, t: real)
    requires t == 0.0
    ensures gravity * t == 0.0
    ensures Trajectory(b, gravity, t) == b.center
  {
    MulBoth(t, 0.0, gravity);
    MulBoth(t, 0.0, b.velocity.x);
    MulBoth(t, 0.0, b.velocity.y);
    MulBoth(t, 0.0, gravity * t);
  }

  /** The inductive step of `FallExact`. */
  lemma FallStep(b: Ball, gravity: real, dt: real, n: nat)
    requires n > 0 && FollowsTrajectory(b, gravity, dt, n - 1)
    ensures FollowsTrajectory(b, gravity, dt, n)
  {
    var p := Fall(b, gravity, dt, n - 1);
    var r := MoveKinematic(p, gravity, dt);
    var t0 := Elapsed(n - 1, dt);
    MoveStep(b, gravity, dt, t0, p);
    VelocityStep(b.velocity.y, gravity, dt, t0, Elapsed(n, dt), p.velocity.y, r.velocity.y);
    assert Fall(b, gravity, dt, n) == r;
  }

  /** One frame of the closed form of the vertical velocity: v0 + g t0 becomes
      v0 + g (t0 + dt). */
  lemma VelocityStep(vy: real, g: real, dt: real, t0: real, t: real, v0: real, v1: real)
    requires t == t0 + dt && v0 == vy + g * t0 && v1 == v0 + g * dt
    ensures v1 == vy + g * t
  {
    MulBoth(t, t0 + dt, g);
  }

  /** One frame from a ball whose position and velocity follow the closed form
      at time `t0` reaches the closed-form position at t0 + dt. */
  lemma MoveStep(b: Ball, gravity: real, dt: real, t0: real, p: Ball)
    requires p.center == Trajectory(b, gravity, t0)
    requires p.velocity.x == b.velocity.x && p.velocity.y == b.velocity.y + gravity * t0
    ensures MoveKinematic(p, gravity, dt).center == Trajectory(b, gravity, t0 + dt)
  {
    var r := MoveKinematic(p, gravity, dt);
    var mean := p.velocity.Plus(r.velocity);
    KinematicStep(b.center.x, b.velocity.x, 0.0, t0, dt, t0 + dt,
                  p.center.x, p.velocity.x, r.velocity.x, mean.x, r.center.x);
    KinematicStep(b.center.y, b.velocity.y, gravity, t0, dt, t0 + dt,
                  p.center.y, p.velocity.y, r.velocity.y, mean.y, r.center.y);
  }

  /** One frame of the closed form in one coordinate: if the position `y0` and
      velocity `v0` at time t0 follow the closed form, then so does the position
      `y1` reached at t0 + dt by moving with the mean of `v0` and `v1`. */
  lemma KinematicStep(y: real, vy: real, g: real, t0: real, dt: real, t: real,
                      y0: real, v0: real, v1: real, m: real, y1: real)
    requires t == t0 + dt
    requires y0 == y + vy * t0 + g * t0 * t0 / 2.0
    requires v0 == vy + g * t0 && v1 == v0 + g * dt
    requires m == v0 + v1 && y1 == y0 + (dt / 2.0) * m
    ensures y1 == y + vy * t + g * t * t / 2.0
  {
    assert m == 2.0 * vy + 2.0 * g * t0 + g * dt;
    MulBoth(m, 2.0 * vy + 2.0 * g * t0 + g * dt, dt / 2.0);
    assert y1 == y + vy * t0 + g * t0 * t0 / 2.0 + (dt / 2.0) * (2.0 * vy + 2.0 * g * t0 + g * dt);
    assert t * t == t0 * t0 + 2.0 * t0 * dt + dt * dt;
    assert g * t * t == g * t0 * t0 + 2.0 * g * t0 * dt + g * dt * dt;
  }

  // ---------------------------------------------------------------------
  // Wall reflection
  // ---------------------------------------------------------------------

  /** Ceiling check: a ball above the ceiling limit is put back on it and its
      vertical velocity reversed. Nothing horizontal is touched. */
  function BounceCeiling(b: Ball): (r: Ball)
    ensures r.center.y >= NearLimit(b)
    ensures r.center.x == b.center.x && r.velocity.x == b.velocity.x
    ensures NearLimit(b) <= b.center.y ==> r == b
    ensures b.center.y < NearLimit(b) ==>
              r.center.y == NearLimit(b) && r.velocity.y == -b.velocity.y
    ensures r == b.(center := r.center, velocity := r.velocity)
  {
    if b.center.y < NearLimit(b) then
      b.(center := b.center.(y := NearLimit(b)), velocity := b.velocity.(y := -b.velocity.y))
    else
      b
  }

  /** Right-wall check: a ball past the right limit is put back on it and its
      horizontal velocity reversed. Nothing vertical is touched. */
  function BounceRight(b: Ball, width: real): (r: Ball)
    ensures r.center.x <= FarLimit(b, width)
    ensures r.center.y == b.center.y && r.velocity.y == b.velocity.y
    ensures b.center.x <= FarLimit(b, width) ==> r == b
    ensures FarLimit(b, width) < b.center.x ==>
              r.center.x == FarLimit(b, width) && r.velocity.x == -b.velocity.x
    ensures r == b.(center := r.center, velocity := r.velocity)
  {
    if b.center.x > FarLimit(b, width) then
      b.(center := b.center.(x := FarLimit(b, width)), velocity := b.velocity.(x := -b.velocity.x))
    else
      b
  }

  /** Left-wall check: a ball past the left limit is put back on it and its
      horizontal velocity reversed. Nothing vertical is touched. */
  function BounceLeft(b: Ball): (r: Ball)
    ensures r.center.x >= NearLimit(b)
    ensures r.center.y == b.center.y && r.velocity.y == b.velocity.y
    ensures NearLimit(b) <= b.center.x ==> r == b
    ensures b.center.x < NearLimit(b) ==>
              r.center.x == NearLimit(b) && r.velocity.x == -b.velocity.x
    ensures r == b.(center := r.center, velocity := r.velocity)
  {
    if b.center.x < NearLimit(b) then
      b.(center := b.center.(x := NearLimit(b)), velocity := b.velocity.(x := -b.velocity.x))
    else
      b
  }

  /** The three wall checks in the game's order: ceiling, right, left. There is
      no floor. When the field is at least one ball-plus-walls wide the result
      is the clamp of the centre into the travel region, with each velocity
      component reversed exactly when its coordinate was clamped. In a field too
      narrow for the ball the left check always fires and the ball ends on the
      left limit; the right check fires too when the centre was past the right
      limit, and then the horizontal velocity is reversed twice. */
  function BounceWalls(b: Ball, width: real): (r: Ball)
    ensures r == b.(center := r.center, velocity := r.velocity)
    ensures r.center.y >= NearLimit(b)
    ensures r.center.y == AtLeast(b.center.y, NearLimit(b))
    ensures r.velocity.y == (if b.center.y < NearLimit(b) then -b.velocity.y else b.velocity.y)
    ensures r.center.x >= NearLimit(b)
    ensures NearLimit(b) <= FarLimit(b, width) ==>
              && r.center.x <= FarLimit(b, width)
              && r.center.x == Clamp(b.center.x, NearLimit(b), FarLimit(b, width))
              && r.velocity.x == (if NearLimit(b) <= b.center.x <= FarLimit(b, width)
                                  then b.velocity.x else -b.velocity.x)
    ensures FarLimit(b, width) < NearLimit(b) ==>
              && r.center.x == NearLimit(b)
              && r.velocity.x == (if FarLimit(b, width) < b.center.x
                                  then b.velocity.x else -b.velocity.x)
  {
    BounceLeft(BounceRight(BounceCeiling(b), width))
  }

  /** In a field wide enough for the ball, reflecting twice is reflecting once. */
  lemma BounceWallsIdempotent(b: Ball, width: real)
    requires NearLimit(b) <= FarLimit(b, width)
    ensures BounceWalls(BounceWalls(b, width), width) == BounceWalls(b, width)
  {
  }

  // ---------------------------------------------------------------------
  // Pairwise impulse
  // ---------------------------------------------------------------------

  /** The overlap test of the collision: squared centre distance below the
      squared sum of radii. */
  predicate Overlapping(a: Ball, b: Ball) {
    var radiusSum := a.radius + b.radius;
    DistanceSq(a.center, b.center) < radiusSum * radiusSum
  }

  /** Momentum of a body: mass times velocity. */
  function Momentum(b: Ball): Vec2 {
    b.velocity.Scale(b.mass)
  }

  lemma RootBelow(d: real, s: real)
    requires d > 0.0 && s > 0.0 && d * d < s * s
    ensures d < s
  {
    assert (s - d) * (s + d) == s * s - d * d;
    PositiveFactor(s - d, s + d);
  }

  lemma PositiveFactor(p: real, q: real)
    requires p * q > 0.0 && q > 0.0
    ensures p > 0.0
  {
  }

  /** Multiplying both sides of an equation by the same factor. */
  lemma MulBoth(p: real, q: real, k: real)
    requires p == q
    ensures k * p == k * q
  {
  }

  lemma ShareOfMass(m: real, totalMass: real, strength: real)
    requires m > 0.0
    ensures m * Impulse(strength, totalMass, m) == 2.0 * strength * totalMass
  {
    assert m * (totalMass / m) == totalMass;
  }

  /** An overlap (negative strength) gives a negative impulse size. */
  lemma ImpulseNegative(strength: real, totalMass: real, m: real)
    requires strength < 0.0 && totalMass > 0.0 && m > 0.0
    ensures Impulse(strength, totalMass, m) < 0.0
  {
    assert totalMass / m > 0.0;
    ProductPositive(-strength, totalMass / m);
  }

  lemma ProductPositive(p: real, q: real)
    requires p > 0.0 && q > 0.0
    ensures p * q > 0.0
  {
  }

  /** Opposite impulses along `dir` whose mass-weighted sizes agree leave the
      total momentum unchanged. */
  lemma MomentumBalance(ma: real, mb: real, ka: real, kb: real, ua: Vec2, ub: Vec2, dir: Vec2)
    requires ma * ka == mb * kb
    ensures ua.Minus(dir.Scale(ka)).Scale(ma).Plus(ub.Plus(dir.Scale(kb)).Scale(mb))
         == ua.Scale(ma).Plus(ub.Scale(mb))
  {
    var va := ua.Minus(dir.Scale(ka));
    var vb := ub.Plus(dir.Scale(kb));
    ImpulseBalance(ma, mb, ka, kb, ua.x, ub.x, dir.x, va.x, vb.x);
    ImpulseBalance(ma, mb, ka, kb, ua.y, ub.y, dir.y, va.y, vb.y);
  }

  /** `MomentumBalance` in one coordinate. */
  lemma ImpulseBalance(ma: real, mb: real, ka: real, kb: real, u: real, w: real, d: real, v: real, z: real)
    requires ma * ka == mb * kb
    requires v == u - ka * d && z == w + kb * d
    ensures ma * v + mb * z == ma * u + mb * w
  {
    MulBoth(v, u - ka * d, ma);
    MulBoth(z, w + kb * d, mb);
    MulBoth(ma * ka, mb * kb, d);
  }

  /** Opposite impulses of total size -(ka + kb) > 0 along a unit `dir` raise the
      relative velocity along `dir`. */
  lemma SeparationGain(ua: Vec2, ub: Vec2, dir: Vec2, ka: real, kb: real)
    requires dir.Dot(dir) == 1.0 && ka + kb < 0.0
    ensures ua.Minus(dir.Scale(ka)).Minus(ub.Plus(dir.Scale(kb))).Dot(dir) > ua.Minus(ub).Dot(dir)
  {
    var w := ua.Minus(dir.Scale(ka)).Minus(ub.Plus(dir.Scale(kb)));
    assert w == ua.Minus(ub).Minus(dir.Scale(ka + kb));
    assert w.Dot(dir) == ua.Minus(ub).Dot(dir) - (ka + kb) * dir.Dot(dir);
    MulBoth(dir.Dot(dir), 1.0, ka + kb);
  }

  /** Size of the velocity change of a ball of mass `m` in a collision: the
      overlap `strength` times the total mass over `m`, doubled. */
  function Impulse(strength: real, totalMass: real, m: real): real
    requires m > 0.0
  {
    strength * (totalMass / m) * 2.0
  }

  /** Distance between two centres and the unit vector pointing from the
      second centre to the first. */
  datatype Separation = Separation(distance: real, dir: Vec2)

  /** `s` is the true separation of the distinct points `p` and `q`. */
  predicate Measures(p: Vec2, q: Vec2, s: Separation) {
    && s.distance > 0.0
    && s.distance * s.distance == DistanceSq(p, q)
    && s.dir.Scale(s.distance) == p.Minus(q)
    && s.dir.Dot(s.dir) == 1.0
  }

  /** `a.bounce_balls(b)`, given the centre distance `distance` and the unit
      vector `dir` from `b`'s centre to `a`'s, which the game obtains from a
      square root and a normalisation. Overlapping balls get opposite impulses
      along `dir`, each scaled by the total mass over the ball's own mass and by
      twice the (negative) overlap; positions are not corrected. */
  function BounceBalls(a: Ball, b: Ball, distance: real, dir: Vec2): (r: (Ball, Ball))
    requires Solid(a) && Solid(b)
    requires Measures(a.center, b.center, Separation(distance, dir))
    ensures !Overlapping(a, b) ==> r == (a, b)
    ensures r.0 == a.(velocity := r.0.velocity) && r.1 == b.(velocity := r.1.velocity)
    ensures Momentum(r.0).Plus(Momentum(r.1)) == Momentum(a).Plus(Momentum(b))
    ensures Overlapping(a, b) ==>
              r.0.velocity.Minus(r.1.velocity).Dot(dir) > a.velocity.Minus(b.velocity).Dot(dir)
  {
    var radiusSum := a.radius + b.radius;
    if DistanceSq(a.center, b.center) >= radiusSum * radiusSum then
      (a, b)
    else
      var strength := distance - radiusSum;
      var totalMass := a.mass + b.mass;
      var ka := Impulse(strength, totalMass, a.mass);
      var kb := Impulse(strength, totalMass, b.mass);
      var va := a.velocity.Minus(dir.Scale(ka));
      var vb := b.velocity.Plus(dir.Scale(kb));
      RootBelow(distance, radiusSum);
      ShareOfMass(a.mass, totalMass, strength);
      ShareOfMass(b.mass, totalMass, strength);
      MomentumBalance(a.mass, b.mass, ka, kb, a.velocity, b.velocity, dir);
      ImpulseNegative(strength, totalMass, a.mass);
      ImpulseNegative(strength, totalMass, b.mass);
      SeparationGain(a.velocity, b.velocity, dir, ka, kb);
      (a.(velocity := va), b.(velocity := vb))
  }

  /** The velocity changes of a collision both lie on the line of centres. */
  lemma BounceAlongLine(a: Ball, b: Ball, distance: real, dir: Vec2)
    requires Solid(a) && Solid(b)
    requires Measures(a.center, b.center, Separation(distance, dir))
    ensures var r := BounceBalls(a, b, distance, dir);
            && r.0.velocity.Minus(a.velocity).Cross(dir) == 0.0
            && r.1.velocity.Minus(b.velocity).Cross(dir) == 0.0
  {
    var r := BounceBalls(a, b, distance, dir);
    if Overlapping(a, b) {
      var strength := distance - (a.radius + b.radius);
      var totalMass := a.mass + b.mass;
      var ka := Impulse(strength, totalMass, a.mass);
      var kb := Impulse(strength, totalMass, b.mass);
      assert r.0 == a.(velocity := a.velocity.Minus(dir.Scale(ka)));
      assert r.1 == b.(velocity := b.velocity.Plus(dir.Scale(kb)));
      ParallelChange(a.velocity, dir, ka);
      ParallelGain(b.velocity, dir, kb);
    } else {
      assert r == (a, b);
    }
  }

  /** Moving a vector by a multiple of `dir` changes it parallel to `dir`. */
  lemma ParallelChange(u: Vec2, dir: Vec2, k: real)
    ensures u.Minus(dir.Scale(k)).Minus(u).Cross(dir) == 0.0
  {
    var d := u.Minus(dir.Scale(k)).Minus(u);
    assert d == Vec2(-(k * dir.x), -(k * dir.y));
    assert d.Cross(dir) == -(k * dir.x) * dir.y + (k * dir.y) * dir.x;
  }

  lemma ParallelGain(u: Vec2, dir: Vec2, k: real)
    ensures u.Plus(dir.Scale(k)).Minus(u).Cross(dir) == 0.0
  {
    var d := u.Plus(dir.Scale(k)).Minus(u);
    assert d == Vec2(k * dir.x, k * dir.y);
    assert d.Cross(dir) == (k * dir.x) * dir.y - (k * dir.y) * dir.x;
  }
}

=== FILE: projectiles.dfy ===
/** The projectiles of one frame: each one falls, bounces off the walls and
    collides with the main ball; those that dropped below the screen are
    removed; then every pair of the remaining projectiles is resolved, in the
    order of the game's `split_at_mut` sweep. */
module Projectiles {
  import opened Vectors
  import opened Physics

  /** The square root and the normalisation of the vector library, packaged as
      one function of two points: it is exact for every pair of distinct points. */
  ghost predicate IsMeasure(measure: (Vec2, Vec2) -> Separation) {
    forall p: Vec2, q: Vec2 :: p != q ==> Measures(p, q, measure(p, q))
  }

  predicate AllSolid(balls: seq<Ball>) {
    forall i :: 0 <= i < |balls| ==> Solid(balls[i])
  }

  /** A call of `bounce_balls` with `a` as the receiver. Coincident centres, for
      which the game normalises a zero vector, leave both balls unchanged. */
  function Resolve(measure: (Vec2, Vec2) -> Separation, a: Ball, b: Ball): (r: (Ball, Ball))
    requires IsMeasure(measure) && Solid(a) && Solid(b)
    ensures r.0 == a.(velocity := r.0.velocity) && r.1 == b.(velocity := r.1.velocity)
    ensures Momentum(r.0).Plus(Momentum(r.1)) == Momentum(a).Plus(Momentum(b))
    ensures !Overlapping(a, b) || a.center == b.center ==> r == (a, b)
    ensures Overlapping(a, b) && a.center != b.center ==>
              var dir := measure(a.center, b.center).dir;
              r.0.velocity.Minus(r.1.velocity).Dot(dir) > a.velocity.Minus(b.velocity).Dot(dir)
  {
    if a.center == b.center then (a, b)
    else
      var s := measure(a.center, b.center);
      assert Measures(a.center, b.center, s);
      BounceBalls(a, b, s.distance, s.dir)
  }

  // ---------------------------------------------------------------------
  // Per-projectile update
  // ---------------------------------------------------------------------

  /** A projectile's own motion in a frame: fall under the plain gravity, then
      the three wall checks. `x` and `y` are the centre after the fall alone,
      `vy` the vertical velocity after it. */
  function Advance(b: Ball, field: Field, dt: real): (r: Ball)
    ensures r == b.(center := r.center, velocity := r.velocity)
    ensures var y := b.center.y + (b.velocity.y + Gravity * dt / 2.0) * dt;
            var vy := b.velocity.y + Gravity * dt;
            && r.center.y == AtLeast(y, NearLimit(b))
            && r.velocity.y == (if y < NearLimit(b) then -vy else vy)
    ensures var x := b.center.x + b.velocity.x * dt;
            NearLimit(b) <= FarLimit(b, field.width) ==>
              && r.center.x == Clamp(x, NearLimit(b), FarLimit(b, field.width))
              && r.velocity.x == (if NearLimit(b) <= x <= FarLimit(b, field.width) then b.velocity.x else -b.velocity.x)
    ensures r.center.y >= NearLimit(b) && r.center.x >= NearLimit(b)
    ensures NearLimit(b) <= FarLimit(b, field.width) ==> r.center.x <= FarLimit(b, field.width)
  {
    var fallen := MoveKinematic(b, Gravity, dt);
    assert fallen.center.y == b.center.y + (b.velocity.y + Gravity * dt / 2.0) * dt;
    assert fallen.center.x == b.center.x + b.velocity.x * dt;
    BounceWalls(fallen, field.width)
  }

  /** A projectile that dropped more than a projectile radius below the bottom
      of the screen has left the field. */
  predicate Retires(b: Ball, field: Field) {
    b.center.y > field.height + BallRadius
  }

  /** One iteration of the projectile loop, on the main ball `main` and the
      projectile `b`: advance the projectile, collide it with the main ball (the
      projectile is the receiver) and mark it out of bounds if it has left. The
      result is the new main ball and the new projectile. */
  function UpdateOne(measure: (Vec2, Vec2) -> Separation, main: Ball, b: Ball, field: Field, dt: real)
    : (r: (Ball, Ball))
    requires IsMeasure(measure) && Solid(main) && Solid(b)
    ensures r.0 == main.(velocity := r.0.velocity)
    ensures r.1 == b.(center := Advance(b, field, dt).center, velocity := r.1.velocity,
                      inBound := b.inBound && !Retires(Advance(b, field, dt), field))
    ensures Momentum(r.0).Plus(Momentum(r.1)) == Momentum(main).Plus(Momentum(Advance(b, field, dt)))
    ensures !Overlapping(Advance(b, field, dt), main) ==> r.0 == main && r.1.velocity == Advance(b, field, dt).velocity
    ensures var moved := Advance(b, field, dt);
            Overlapping(moved, main) && moved.center != main.center ==>
              var dir := measure(moved.center, main.center).dir;
              r.1.velocity.Minus(r.0.velocity).Dot(dir) > moved.velocity.Minus(main.velocity).Dot(dir)
  {
    var moved := Advance(b, field, dt);
    var hit := Resolve(measure, moved, main);
    var out := if Retires(hit.0, field) then hit.0.(inBound := false) else hit.0;
    (hit.1, out)
  }

  /** The projectile loop over `balls` in order, threading the main ball through
      it. The result is the final main ball and the updated projectiles. */
  function UpdateAll(measure: (Vec2, Vec2) -> Separation, main: Ball, balls: seq<Ball>, field: Field, dt: real)
    : (r: (Ball, seq<Ball>))
    requires IsMeasure(measure) && Solid(main) && AllSolid(balls)
    ensures r.0 == main.(velocity := r.0.velocity)
    ensures |r.1| == |balls|
    ensures forall i :: 0 <= i < |balls| ==>
              r.1[i] == balls[i].(center := Advance(balls[i], field, dt).center,
                                  velocity := r.1[i].velocity,
                                  inBound := balls[i].inBound && !Retires(Advance(balls[i], field, dt), field))
  {
    if |balls| == 0 then (main, [])
    else
      var n := |balls|;
      var prev := UpdateAll(measure, main, balls[..n - 1], field, dt);
      var last := UpdateOne(measure, prev.0, balls[n - 1], field, dt);
      (last.0, prev.1 + [last.1])
  }

  /** The main ball's collisions in the projectile loop, each with the main ball
      as the previous collision left it, conserve momentum: the main ball and
      the projectiles after the loop carry the momentum of the main ball before
      it and of the projectiles after their own motion. */
  lemma {:induction false} UpdateAllConserves(measure: (Vec2, Vec2) -> Separation, main: Ball, balls: seq<Ball>,
                                              field: Field, dt: real)
    requires IsMeasure(measure) && Solid(main) && AllSolid(balls)
    ensures var r := UpdateAll(measure, main, balls, field, dt);
            Momentum(r.0).Plus(TotalMomentum(r.1)) == Momentum(main).Plus(TotalMomentum(Advanced(balls, field, dt)))
  {
    if |balls| > 0 {
      var n := |balls|;
      UpdateAllConserves(measure, main, balls[..n - 1], field, dt);
      var prev := UpdateAll(measure, main, balls[..n - 1], field, dt);
      var last := UpdateOne(measure, prev.0, balls[n - 1], field, dt);
      assert UpdateAll(measure, main, balls, field, dt) == (last.0, prev.1 + [last.1]);
      TotalMomentumSnoc(prev.1, last.1);
      AdvancedSnoc(balls, field, dt);
      Regroup(Momentum(prev.0), TotalMomentum(prev.1), Momentum(main),
              TotalMomentum(Advanced(balls[..n - 1], field, dt)),
              Momentum(last.0), Momentum(last.1), Momentum(Advance(balls[n - 1], field, dt)));
    }
  }

  /** Projectile `i` meets the main ball as the projectiles before it left it,
      `m`, and leaves it as `m'`, the main ball after the first `i + 1`
      projectiles: its entry in the result and `m'` are exactly that one
      collision. When the advanced projectile overlaps `m`, the two separate
      strictly faster along their line of centres. This holds whether or not
      the projectile leaves the field in this frame. */
  lemma {:induction false} UpdateAllHitsEach(measure: (Vec2, Vec2) -> Separation, main: Ball, balls: seq<Ball>,
                                             field: Field, dt: real, i: nat)
    requires IsMeasure(measure) && Solid(main) && AllSolid(balls) && i < |balls|
    ensures var m := UpdateAll(measure, main, balls[..i], field, dt).0;
            var m' := UpdateAll(measure, main, balls[..i + 1], field, dt).0;
            var r := UpdateAll(measure, main, balls, field, dt);
            var a := Advance(balls[i], field, dt);
            && Solid(m)
            && (m', r.1[i]) == UpdateOne(measure, m, balls[i], field, dt)
            && (Overlapping(a, m) && a.center != m.center ==>
                  var dir := measure(a.center, m.center).dir;
                  r.1[i].velocity.Minus(m'.velocity).Dot(dir) > a.velocity.Minus(m.velocity).Dot(dir))
  {
    var prefix := balls[..i + 1];
    assert prefix[..i] == balls[..i];
    assert prefix[i] == balls[i];
    UpdateAllPrefix(measure, main, balls, field, dt, i + 1);
    var r := UpdateAll(measure, main, balls, field, dt);
    assert r.1[i] == r.1[..i + 1][i];
  }

  /** The loop's first `k` results depend only on the first `k` projectiles. */
  lemma {:induction false} UpdateAllPrefix(measure: (Vec2, Vec2) -> Separation, main: Ball, balls: seq<Ball>,
                                           field: Field, dt: real, k: nat)
    requires IsMeasure(measure) && Solid(main) && AllSolid(balls) && k <= |balls|
    ensures UpdateAll(measure, main, balls, field, dt).1[..k] == UpdateAll(measure, main, balls[..k], field, dt).1
  {
    var n := |balls|;
    if k == n {
      assert balls[..k] == balls;
    } else {
      var init := balls[..n - 1];
      UpdateAllPrefix(measure, main, init, field, dt, k);
      assert init[..k] == balls[..k];
    }
  }

  /** Every projectile of `balls` after its own motion, before any collision. */
  function Advanced(balls: seq<Ball>, field: Field, dt: real): (r: seq<Ball>)
    ensures |r| == |balls|
    ensures forall i :: 0 <= i < |balls| ==> r[i] == Advance(balls[i], field, dt)
  {
    seq(|balls|, i requires 0 <= i < |balls| => Advance(balls[i], field, dt))
  }

  lemma AdvancedSnoc(balls: seq<Ball>, field: Field, dt: real)
    requires |balls| > 0
    ensures TotalMomentum(Advanced(balls, field, dt))
         == TotalMomentum(Advanced(balls[..|balls| - 1], field, dt)).Plus(Momentum(Advance(balls[|balls| - 1], field, dt)))
  {
    var n := |balls|;
    assert Advanced(balls, field, dt)[..n - 1] == Advanced(balls[..n - 1], field, dt);
  }

  lemma TotalMomentumSnoc(s: seq<Ball>, x: Ball)
    ensures TotalMomentum(s + [x]) == TotalMomentum(s).Plus(Momentum(x))
  {
    assert (s + [x])[..|s|] == s;
  }

  /** Adding a momentum-conserving exchange (e + f == a + g) to a balance
      (a + b == c + d) keeps the balance. */
  lemma Regroup(a: Vec2, b: Vec2, c: Vec2, d: Vec2, e: Vec2, f: Vec2, g: Vec2)
    requires a.Plus(b) == c.Plus(d) && e.Plus(f) == a.Plus(g)
    ensures e.Plus(b.Plus(f)) == c.Plus(d.Plus(g))
  {
  }

  // ---------------------------------------------------------------------
  // Pruning
  // ---------------------------------------------------------------------

  /** `retain(|x| x.in_bound)`: keep the projectiles still in bounds, in order. */
  function Retain(balls: seq<Ball>): (r: seq<Ball>)
    ensures |r| <= |balls|
    ensures forall x :: x in r <==> x in balls && x.inBound
  {
    if |balls| == 0 then []
    else
      var init := Retain(balls[..|balls| - 1]);
      var last := balls[|balls| - 1];
      assert balls == balls[..|balls| - 1] + [last];
      if last.inBound then init + [last] else init
  }

  /** `Retain` distributes over concatenation, so it keeps the relative order of
      the survivors. */
  lemma {:induction false} RetainAppend(a: seq<Ball>, b: seq<Ball>)
    ensures Retain(a + b) == Retain(a) + Retain(b)
  {
    if |b| > 0 {
      var c := a + b;
      assert c[..|c| - 1] == a + b[..|b| - 1];
      assert c[|c| - 1] == b[|b| - 1];
      RetainAppend(a, b[..|b| - 1]);
    } else {
      assert a + b == a;
    }
  }

  /** Projectiles that are all in bounds are all kept. */
  lemma {:induction false} RetainAllInBound(balls: seq<Ball>)
    requires forall i :: 0 <= i < |balls| ==> balls[i].inBound
    ensures Retain(balls) == balls
  {
    if |balls| > 0 {
      RetainAllInBound(balls[..|balls| - 1]);
      assert balls == balls[..|balls| - 1] + [balls[|balls| - 1]];
    }
  }

  // ---------------------------------------------------------------------
  // The pair sweep
  // ---------------------------------------------------------------------

  /** Indices of a pair of projectiles; `lo` is the receiver of `bounce_balls`. */
  datatype Pair = Pair(lo: nat, hi: nat)

  /** Pairs of the sweep's iteration with receiver `lo`: `lo` against every later
      index. */
  function Row(lo: nat, n: nat): (r: seq<Pair>)
    requires lo < n
    ensures |r| == n - lo - 1
    ensures forall k :: 0 <= k < |r| ==> r[k] == Pair(lo, lo + 1 + k)
  {
    seq(n - lo - 1, k requires 0 <= k => Pair(lo, lo + 1 + k))
  }

  /** The pairs of the rows with receiver below `m`, in sweep order. */
  function PairsUpTo(m: nat, n: nat): seq<Pair>
    requires m <= n
  {
    if m == 0 then [] else PairsUpTo(m - 1, n) + Row(m - 1, n)
  }

  /** Every pair the sweep over `n` projectiles visits, in order: for `i` from 1
      below `n`, the receiver `i - 1` against each index from `i` on. */
  function PairOrder(n: nat): seq<Pair> {
    if n == 0 then [] else PairsUpTo(n - 1, n)
  }

  predicate LexLess(p: Pair, q: Pair) {
    p.lo < q.lo || (p.lo == q.lo && p.hi < q.hi)
  }

  /** Strictly increasing in the lexicographic order, hence without repetitions. */
  predicate LexSorted(s: seq<Pair>) {
    forall i, j :: 0 <= i < j < |s| ==> LexLess(s[i], s[j])
  }

  lemma {:induction false} PairsUpToMembers(m: nat, n: nat)
    requires m <= n
    ensures forall p :: p in PairsUpTo(m, n) <==> p.lo < m && p.lo < p.hi < n
  {
    if m > 0 {
      PairsUpToMembers(m - 1, n);
      forall p: Pair | p.lo == m - 1 && p.lo < p.hi < n
        ensures p in Row(m - 1, n)
      {
        assert Row(m - 1, n)[p.hi - m] == p;
      }
    }
  }

  lemma {:induction false} PairsUpToSorted(m: nat, n: nat)
    requires m <= n
    ensures LexSorted(PairsUpTo(m, n))
  {
    if m > 0 {
      PairsUpToSorted(m - 1, n);
      PairsUpToMembers(m - 1, n);
      var a := PairsUpTo(m - 1, n);
      var s := a + Row(m - 1, n);
      forall i, j | 0 <= i < j < |s|
        ensures LexLess(s[i], s[j])
      {
        if j < |a| {
          assert s[i] == a[i] && s[j] == a[j];
        } else if i < |a| {
          assert s[i] == a[i] && s[i] in a;
          assert s[i].lo < m - 1;
          assert s[j] == Row(m - 1, n)[j - |a|];
          assert s[j].lo == m - 1;
        } else {
          assert s[i] == Row(m - 1, n)[i - |a|];
          assert s[j] == Row(m - 1, n)[j - |a|];
          assert s[i].hi < s[j].hi;
        }
      }
    }
  }

  lemma {:induction false} PairsUpToSize(m: nat, n: nat)
    requires m <= n
    ensures 2 * |PairsUpTo(m, n)| == m * (2 * n - m - 1)
  {
    if m > 0 {
      PairsUpToSize(m - 1, n);
    }
  }

  /** The sweep visits exactly the pairs of distinct indices below `n`, each
      once with the lower index as receiver, in lexicographic order; there are
      n (n - 1) / 2 of them, and none when fewer than two projectiles remain. */
  lemma PairOrderComplete(n: nat)
    ensures forall p :: p in PairOrder(n) <==> p.lo < p.hi < n
    ensures LexSorted(PairOrder(n))
    ensures forall i, j :: 0 <= i < j < |PairOrder(n)| ==> PairOrder(n)[i] != PairOrder(n)[j]
    ensures 2 * |PairOrder(n)| == n * (n - 1)
    ensures n < 2 ==> PairOrder(n) == []
  {
    if n > 0 {
      PairsUpToMembers(n - 1, n);
      PairsUpToSorted(n - 1, n);
      PairsUpToSize(n - 1, n);
    }
  }

  predicate PairsIn(pairs: seq<Pair>, n: nat) {
    forall k :: 0 <= k < |pairs| ==> pairs[k].lo < pairs[k].hi < n
  }

  /** One `bounce_balls` call of the sweep, on the projectiles at `p.lo` and
      `p.hi`: projectiles that do not overlap are left alone, and overlapping
      ones with distinct centres separate strictly faster along their line of
      centres. */
  function ApplyPair(measure: (Vec2, Vec2) -> Separation, balls: seq<Ball>, p: Pair): (r: seq<Ball>)
    requires IsMeasure(measure) && AllSolid(balls) && p.lo < p.hi < |balls|
    ensures |r| == |balls| && AllSolid(r)
    ensures !Overlapping(balls[p.lo], balls[p.hi]) ==> r == balls
    ensures var a := balls[p.lo];
            var b := balls[p.hi];
            Overlapping(a, b) && a.center != b.center ==>
              var dir := measure(a.center, b.center).dir;
              r[p.lo].velocity.Minus(r[p.hi].velocity).Dot(dir) > a.velocity.Minus(b.velocity).Dot(dir)
  {
    var hit := Resolve(measure, balls[p.lo], balls[p.hi]);
    balls[p.lo := hit.0][p.hi := hit.1]
  }

  /** A call of the sweep changes only the velocities of the two projectiles it
      names. */
  lemma ApplyPairFrame(measure: (Vec2, Vec2) -> Separation, balls: seq<Ball>, p: Pair)
    requires IsMeasure(measure) && AllSolid(balls) && p.lo < p.hi < |balls|
    ensures var r := ApplyPair(measure, balls, p);
            && (forall i :: 0 <= i < |balls| ==> r[i] == balls[i].(velocity := r[i].velocity))
            && (forall i :: 0 <= i < |balls| && i != p.lo && i != p.hi ==> r[i] == balls[i])
  {
  }

  /** A call of the sweep conserves the total momentum of the projectiles. */
  lemma ApplyPairMomentum(measure: (Vec2, Vec2) -> Separation, balls: seq<Ball>, p: Pair)
    requires IsMeasure(measure) && AllSolid(balls) && p.lo < p.hi < |balls|
    ensures TotalMomentum(ApplyPair(measure, balls, p)) == TotalMomentum(balls)
  {
    var hit := Resolve(measure, balls[p.lo], balls[p.hi]);
    MomentumUpdate(balls, p.lo, hit.0);
    MomentumUpdate(balls[p.lo := hit.0], p.hi, hit.1);
  }

  /** The calls of `ApplyPair` for `pairs`, in order. */
  function ApplyPairs(measure: (Vec2, Vec2) -> Separation, balls: seq<Ball>, pairs: seq<Pair>): (r: seq<Ball>)
    requires IsMeasure(measure) && AllSolid(balls) && PairsIn(pairs, |balls|)
    ensures |r| == |balls| && AllSolid(r)
  {
    if |pairs| == 0 then balls
    else
      var prev := ApplyPairs(measure, balls, pairs[..|pairs| - 1]);
      ApplyPair(measure, prev, pairs[|pairs| - 1])
  }

  /** The sweep changes only velocities, and conserves the total momentum of the
      projectiles. */
  lemma {:induction false} ApplyPairsConserves(measure: (Vec2, Vec2) -> Separation, balls: seq<Ball>,
                                              pairs: seq<Pair>)
    requires IsMeasure(measure) && AllSolid(balls) && PairsIn(pairs, |balls|)
    ensures var r := ApplyPairs(measure, balls, pairs);
            && (forall i :: 0 <= i < |balls| ==> r[i] == balls[i].(velocity := r[i].velocity))
            && TotalMomentum(r) == TotalMomentum(balls)
  {
    if |pairs| > 0 {
      var init := pairs[..|pairs| - 1];
      ApplyPairsConserves(measure, balls, init);
      ApplyPairMomentum(measure, ApplyPairs(measure, balls, init), pairs[|pairs| - 1]);
      ApplyPairFrame(measure, ApplyPairs(measure, balls, init), pairs[|pairs| - 1]);
    }
  }

  /** Sum of the momenta of a sequence of balls. */
  function TotalMomentum(balls: seq<Ball>): Vec2 {
    if |balls| == 0 then Vec2(0.0, 0.0)
    else TotalMomentum(balls[..|balls| - 1]).Plus(Momentum(balls[|balls| - 1]))
  }

  /** Replacing one ball changes the total momentum by the difference of the
      replaced ball's momentum and its replacement's. */
  lemma {:induction false} MomentumUpdate(balls: seq<Ball>, i: nat, x: Ball)
    requires i < |balls|
    ensures TotalMomentum(balls[i := x])
         == TotalMomentum(balls).Minus(Momentum(balls[i])).Plus(Momentum(x))
  {
    var n := |balls|;
    var s := balls[i := x];
    if i == n - 1 {
      assert s[..n - 1] == balls[..n - 1];
    } else {
      assert s[..n - 1] == balls[..n - 1][i := x];
      MomentumUpdate(balls[..n - 1], i, x);
    }
  }

  /** Appending a pair to the sweep applies it last. */
  lemma ApplyPairsSnoc(measure: (Vec2, Vec2) -> Separation, balls: seq<Ball>, pairs: seq<Pair>, p: Pair)
    requires IsMeasure(measure) && AllSolid(balls) && PairsIn(pairs, |balls|) && p.lo < p.hi < |balls|
    ensures PairsIn(pairs + [p], |balls|)
    ensures ApplyPairs(measure, balls, pairs + [p]) == ApplyPair(measure, ApplyPairs(measure, balls, pairs), p)
  {
    assert (pairs + [p])[..|pairs|] == pairs;
  }

  /** One iteration of the sweep's outer loop: the receiver `lo` collides with
      every projectile after it, in order (the inner `for other in others`). */
  method SweepRow(measure: (Vec2, Vec2) -> Separation, balls: seq<Ball>, current: seq<Ball>,
                  done: seq<Pair>, lo: nat)
    returns (r: seq<Ball>, visited: seq<Pair>)
    requires IsMeasure(measure) && AllSolid(balls) && lo < |balls|
    requires PairsIn(done, |balls|) && current == ApplyPairs(measure, balls, done)
    ensures visited == done + Row(lo, |balls|)
    ensures PairsIn(visited, |balls|)
    ensures r == ApplyPairs(measure, balls, visited)
  {
    var n := |balls|;
    r := current;
    visited := done;
    var j := lo + 1;
    while j < n
      invariant lo + 1 <= j <= n
      invariant visited == done + Row(lo, n)[..j - lo - 1]
      invariant PairsIn(visited, n)
      invariant r == ApplyPairs(measure, balls, visited)
    {
      RowStep(done, lo, n, j);
      ApplyPairsSnoc(measure, balls, visited, Pair(lo, j));
      r := ApplyPair(measure, r, Pair(lo, j));
      visited := visited + [Pair(lo, j)];
      j := j + 1;
    }
    assert Row(lo, n)[..n - lo - 1] == Row(lo, n);
  }

  /** The inner loop's pairs grow by the next pair of the row. */
  lemma RowStep(done: seq<Pair>, lo: nat, n: nat, j: nat)
    requires lo < j < n
    ensures done + Row(lo, n)[..j - lo - 1] + [Pair(lo, j)] == done + Row(lo, n)[..j - lo]
  {
    var row := Row(lo, n);
    assert row[..j - lo] == row[..j - lo - 1] + [Pair(lo, j)];
  }

  /** The outer loop's pairs grow by the next receiver's row. */
  lemma PairsUpToStep(lo: nat, n: nat)
    requires lo < n
    ensures PairsUpTo(lo + 1, n) == PairsUpTo(lo, n) + Row(lo, n)
  {
  }

  /** The `split_at_mut` sweep as the game writes it: for `i` from 1 below the
      number of projectiles, the projectile at `i - 1` collides with each of the
      projectiles after it, in order. The loop below counts the receiver
      `lo`, which is the game's `i - 1`. Also returns the pairs visited. */
  method SweepPairs(measure: (Vec2, Vec2) -> Separation, balls: seq<Ball>)
    returns (r: seq<Ball>, visited: seq<Pair>)
    requires IsMeasure(measure) && AllSolid(balls)
    ensures visited == PairOrder(|balls|)
    ensures PairsIn(visited, |balls|)
    ensures r == ApplyPairs(measure, balls, visited)
  {
    var n := |balls|;
    r := balls;
    visited := [];
    var lo := 0;
    while lo + 1 < n
      invariant lo == 0 || lo < n
      invariant visited == PairsUpTo(lo, n)
      invariant PairsIn(visited, n) && r == ApplyPairs(measure, balls, visited)
    {
      PairsUpToStep(lo, n);
      r, visited := SweepRow(measure, balls, r, visited, lo);
      lo := lo + 1;
    }
  }
}

=== FILE: scoring.dfy ===
/** The contact-side state machine of Wall 2 Wall and its scoring. The red main
    ball earns a point for touching the green wall; the wall it touched then
    turns red and the opposite wall green, so points come only from
    alternating contacts. `best` is the running maximum of the score, and every
    time it is raised the new value is handed to `save`, which the model records
    as an emitted event. */
module Scoring {

  /** Which wall the ball must touch next to score; `None` before the first
      contact and after a loss, when either wall scores. */
  datatype Current = None | Left | Right

  datatype Color = Green | Red

  /** The side wall a contact is with. */
  datatype Wall = LeftWall | RightWall

  datatype Board = Board(score: nat, best: nat, current: Current, leftColor: Color, rightColor: Color)

  /** Result of `IncrementScore`: the new score and best, and whether `save` fired. */
  datatype Tally = Tally(score: nat, best: nat, saved: bool)

  /** A board together with the values passed to `save`, in order. */
  datatype Scored = Scored(board: Board, saves: seq<nat>)

  function Max(a: nat, b: nat): (m: nat)
    ensures m >= a && m >= b && (m == a || m == b)
  {
    if a < b then b else a
  }

  /** The board at the start of a game, and after every loss: no score, either
      wall may be touched, both walls green. */
  function Fresh(best: nat): (r: Board)
    ensures r.score == 0 && r.best == best && r.current == None
    ensures r.leftColor == Green && r.rightColor == Green
  {
    Board(0, best, None, Green, Green)
  }

  /** Raise the score by one; when it exceeds the best, it is saved and becomes
      the new best. */
  function IncrementScore(score: nat, best: nat): (r: Tally)
    ensures r.score == score + 1
    ensures r.best == Max(best, r.score)
    ensures r.saved <==> r.score > best
    ensures r.best >= best && r.best >= r.score
  {
    var s := score + 1;
    if s > best then Tally(s, s, true) else Tally(s, best, false)
  }

  /** The state a contact with `wall` leaves behind: the opposite wall is next. */
  function Target(wall: Wall): (c: Current)
    ensures c != None
    ensures wall == LeftWall <==> c == Right
  {
    match wall
    case LeftWall => Right
    case RightWall => Left
  }

  /** The wall colours agree with the state: a wall is green exactly when
      touching it next would score. */
  predicate WallsShow(b: Board) {
    && (b.leftColor == Green <==> b.current != Right)
    && (b.rightColor == Green <==> b.current != Left)
  }

  /** The scoring part of a contact between the main ball and a side wall
      (the `match current_wall` blocks of the frame). The position and velocity
      correction that always follows is in `Physics.BounceWalls`. */
  function Contact(b: Board, wall: Wall): (r: Scored)
    ensures r.board.current == Target(wall)
    ensures b.current == Target(wall) ==> r == Scored(b, [])
    ensures b.current != Target(wall) ==>
              && r.board.score == b.score + 1
              && r.board.best == Max(b.best, b.score + 1)
              && r.saves == (if b.score + 1 > b.best then [b.score + 1] else [])
              && WallsShow(r.board)
    ensures WallsShow(b) ==> WallsShow(r.board)
    ensures r.board.best >= b.best
    ensures r.board.score >= b.score
  {
    if b.current == Target(wall) then
      Scored(b, [])
    else
      var t := IncrementScore(b.score, b.best);
      var board := match wall
        case RightWall => Board(t.score, t.best, Left, Green, Red)
        case LeftWall => Board(t.score, t.best, Right, Red, Green);
      Scored(board, if t.saved then [t.score] else [])
  }

  /** The lose reset: score, state and colours back to those of a fresh game;
      the best score is kept. */
  function Lose(b: Board): (r: Board)
    ensures r.score == 0 && r.best == b.best && r.current == None
    ensures r.leftColor == Green && r.rightColor == Green
    ensures WallsShow(r)
    ensures forall wall :: Contact(r, wall).board.score == 1
  {
    Fresh(b.best)
  }

  // ---------------------------------------------------------------------
  // Runs of contacts
  // ---------------------------------------------------------------------

  /** A run of contacts, in order, with no loss in between. */
  function ApplyContacts(b: Board, walls: seq<Wall>): (r: Scored)
    ensures r.board.best >= b.best && r.board.score >= b.score
    ensures |walls| == 0 ==> r == Scored(b, [])
    ensures |walls| > 0 ==> r.board.current == Target(walls[|walls| - 1])
    ensures WallsShow(b) ==> WallsShow(r.board)
  {
    if |walls| == 0 then Scored(b, [])
    else
      var prev := ApplyContacts(b, walls[..|walls| - 1]);
      var last := Contact(prev.board, walls[|walls| - 1]);
      Scored(last.board, prev.saves + last.saves)
  }

  /** Whether contact number `i` of a run starting in state `c` scores: the first
      one scores unless the state already names its target; a later one scores
      exactly when it is with the other wall than the contact before it. */
  predicate ScoresAt(c: Current, walls: seq<Wall>, i: nat)
    requires i < |walls|
  {
    if i == 0 then c != Target(walls[0]) else walls[i] != walls[i - 1]
  }

  /** Number of scoring contacts in a run, by the rule of `ScoresAt`. */
  function CountScoring(c: Current, walls: seq<Wall>): nat
  {
    if |walls| == 0 then 0
    else CountScoring(c, walls[..|walls| - 1]) + (if ScoresAt(c, walls, |walls| - 1) then 1 else 0)
  }

  predicate StrictlyIncreasing(s: seq<nat>) {
    forall i, j :: 0 <= i < j < |s| ==> s[i] < s[j]
  }

  /** Over a run of contacts the score rises by the number of alternations, and
      the best becomes the larger of the old best and the final score. */
  lemma {:induction false} ContactsScore(b: Board, walls: seq<Wall>)
    requires b.best >= b.score
    ensures var r := ApplyContacts(b, walls);
            && r.board.score == b.score + CountScoring(b.current, walls)
            && r.board.best == Max(b.best, r.board.score)
  {
    if |walls| > 0 {
      var init := walls[..|walls| - 1];
      ContactsScore(b, init);
      var prev := ApplyContacts(b, init);
      if |init| > 0 {
        assert prev.board.current == Target(init[|init| - 1]);
        assert init[|init| - 1] == walls[|walls| - 2];
      }
      assert prev.board.current == Target(walls[|walls| - 1])
         <==> !ScoresAt(b.current, walls, |walls| - 1);
    }
  }

  /** The values saved over a run of contacts are increasing, all above the old
      best and at most the new best; there is one exactly when the best rose,
      and the last one is the new best. */
  lemma {:induction false} ContactsSaves(b: Board, walls: seq<Wall>)
    requires b.best >= b.score
    ensures var r := ApplyContacts(b, walls);
            && r.board.best >= r.board.score
            && StrictlyIncreasing(r.saves)
            && (forall i :: 0 <= i < |r.saves| ==> b.best < r.saves[i] <= r.board.best)
            && (|r.saves| > 0 <==> r.board.best > b.best)
            && (|r.saves| > 0 ==> r.saves[|r.saves| - 1] == r.board.best)
  {
    if |walls| > 0 {
      var init := walls[..|walls| - 1];
      ContactsSaves(b, init);
      var prev := ApplyContacts(b, init);
      var last := Contact(prev.board, walls[|walls| - 1]);
      if |last.saves| > 0 {
        assert last.saves == [last.board.best];
        AppendAbove(prev.saves, b.best, last.board.best);
      } else {
        assert prev.saves + last.saves == prev.saves;
      }
    }
  }

  /** Appending a value above every element keeps a sequence increasing and
      bounded below. */
  lemma AppendAbove(s: seq<nat>, lo: nat, x: nat)
    requires StrictlyIncreasing(s) && lo < x
    requires forall i :: 0 <= i < |s| ==> lo < s[i] < x
    ensures StrictlyIncreasing(s + [x])
    ensures forall i :: 0 <= i < |s + [x]| ==> lo < (s + [x])[i] <= x
  {
  }

  /** No run of contacts scores more often than it has contacts. */
  lemma {:induction false} CountScoringAtMost(c: Current, walls: seq<Wall>)
    ensures CountScoring(c, walls) <= |walls|
  {
    if |walls| > 0 {
      CountScoringAtMost(c, walls[..|walls| - 1]);
    }
  }

  /** Contacts that alternate between the walls, starting with a wall that
      scores, score every time. */
  lemma {:induction false} AlternatingAlwaysScores(c: Current, walls: seq<Wall>)
    requires |walls| > 0 ==> c != Target(walls[0])
    requires forall i :: 0 < i < |walls| ==> walls[i] != walls[i - 1]
    ensures CountScoring(c, walls) == |walls|
  {
    if |walls| > 0 {
      AlternatingAlwaysScores(c, walls[..|walls| - 1]);
    }
  }

  /** Touching the same wall again and again scores at most once. */
  lemma {:induction false} RepeatedWallScoresOnce(c: Current, wall: Wall, n: nat)
    ensures CountScoring(c, seq(n, _ => wall)) == (if n > 0 && c != Target(wall) then 1 else 0)
  {
    if n > 0 {
      var walls := seq(n, _ => wall);
      assert walls[..n - 1] == seq(n - 1, _ => wall);
      RepeatedWallScoresOnce(c, wall, n - 1);
    }
  }
}

=== FILE: vectors.dfy ===
/** Two-dimensional vectors over the reals, standing in for the game's
    32-bit floating-point `Vec2`. Only the operations the physics uses are
    defined. */
module Vectors {

  datatype Vec2 = Vec2(x: real, y: real) {

    function Plus(o: Vec2): Vec2 {
      Vec2(x + o.x, y + o.y)
    }

    function Minus(o: Vec2): Vec2 {
      Vec2(x - o.x, y - o.y)
    }

    /** Multiplication by a scalar, written on the left as in `k * v`. */
    function Scale(k: real): Vec2 {
      Vec2(k * x, k * y)
    }

    function Dot(o: Vec2): real {
      x * o.x + y * o.y
    }

    function LengthSq(): real {
      x * x + y * y
    }

    /** The z-component of the cross product; zero exactly for parallel vectors. */
    function Cross(o: Vec2): real {
      x * o.y - y * o.x
    }
  }

  /** Squared Euclidean distance between two points. */
  function DistanceSq(a: Vec2, b: Vec2): real {
    a.Minus(b).LengthSq()
  }
}
